=== FILE: README.md ===
# Menu surface, dialog and menu event logic, in Dafny

This project models the decision logic in three custom-element adapters of
material-components-web-elm. Each adapter wires browser events to a Material
foundation class. The foundations themselves are not part of this model.

- **Menu surface** (`src/menu-surface/component.ts`). Opening the surface
  records its first and last focusable descendants. A keydown either asks to
  close (Escape), wraps focus across the ends of that ring (Tab on the last
  element, Shift+Tab on the first), or does nothing. A click on the body
  outside the surface asks to close. `restoreFocus` only takes focus back while
  focus is still inside the surface. `setPosition` writes `<n>px` or `''` into
  the four side properties of the inline style.
- **Dialog** (`src/dialog/component.ts`). `handleInteraction` is a decision
  table over click, Space and Enter. A scrim click closes. A press on an
  element whose nearest ancestor carries a non-empty action closes. Enter with
  no action on a target that does not suppress it clicks the default button.
  Anything else does nothing. Escape on the document closes. `initialize`
  throws when there is no container.
- **Menu** (`src/menu/component.ts`). Covers item lookup by index and by
  element (-1 when absent), the empty fallbacks without a list, `wrapFocus`
  forwarding, focusing the first item after opening, and `open` delegation.

The document is abstract (module `Dom`). It has elements in tree order, a
parent map, the set of elements each selector matches, and element attributes.
`matches`, `closest`, `contains`, `querySelector` and `querySelectorAll` are
defined over it. Handlers are pure functions. Most return the ordered list of
effects they ask of the browser: dispatch an event, focus an element, prevent
the default action, or click an element. `FocusAfter` gives the focused element
once those effects have run. `MenuSurface.RestoreFocus` and
`Menu.HandleAfterOpened` instead return the focused element afterwards
directly. The currently focused element (`document.activeElement`) is an
explicit parameter.

Behaviours of the code worth noting:

- Closing the surface does not clear the first/last focusable snapshot. Only
  the next opening replaces it (`src/menu-surface/component.ts:125-134`).
- `restoreFocus` does not check that the saved element still exists. It
  focuses it whenever focus is inside the surface and something was saved.
- In `src/menu/component.ts` nothing assigns the list. As written, `items` is
  therefore always empty. The model keeps the list optional so that both cases
  are covered.
- The dialog tests `key === 'Space'`. Browsers report the space bar as `' '`,
  so only `keyCode === 32` recognises it. The model keeps the comparison as
  written.

## Model

| member | source | states |
|---|---|---|
| `MenuSurface.SetOpen` | src/menu-surface/component.ts:125-134 | opening records as first the first focusable descendant in tree order and as last a focusable descendant after which none follows in tree order, both absent together when there are none; closing keeps the snapshot; the open flag follows the value |
| `MenuSurface.HandleKeydown` | src/menu-surface/component.ts:75-103 | Escape yields exactly one bubbling close and nothing else, even when a wrap would apply; Tab on the last element focuses the first, Shift+Tab on the first focuses the last, both preventing default and doing nothing else; preventDefault happens iff one of those wraps applies; otherwise no effect at all |
| `MenuSurface.FocusFirstElement` | src/menu-surface/component.ts:220-221 | focus ends on the first focusable element when there is one and is unchanged otherwise |
| `MenuSurface.FocusLastElement` | src/menu-surface/component.ts:222-223 | focus ends on the last focusable element when there is one and is unchanged otherwise |
| `MenuSurface.HandleBodyClick` | src/menu-surface/component.ts:106-112 | a click target inside the root (inclusive) yields no effect at all; any other target, null included, yields exactly one bubbling close and nothing else |
| `MenuSurface.SaveFocus` | src/menu-surface/component.ts:206-208 | records the focused element and changes nothing else |
| `MenuSurface.RestoreFocus` | src/menu-surface/component.ts:209-215 | focus returns to the saved element only when the current focus is inside the surface and an element was saved; otherwise focus is unchanged |
| `MenuSurface.SaveThenRestore` | src/menu-surface/component.ts:206-215 | saving an element and restoring while focus is inside the surface refocuses exactly that element |
| `MenuSurface.SetPosition` | src/menu-surface/component.ts:238-243 | each side reads back as the given distance when present and is `''` exactly when absent; maxHeight is untouched |
| `MenuSurface.SetPositionForgetsPrevious` | src/menu-surface/component.ts:238-243 | the four side slots after setPosition do not depend on the previous style |
| `MenuSurface.TabWrapsToFirst` | src/menu-surface/component.ts:91-95 | after opening, Tab on the last focusable descendant focuses the first one and prevents default |
| `MenuSurface.ShiftTabWrapsToLast` | src/menu-surface/component.ts:96-100 | after opening, Shift+Tab on the first focusable descendant focuses the last one and prevents default |
| `MenuSurface.EmptyRingNeverTraps` | src/menu-surface/component.ts:127-129 | opening a surface with no focusable descendants leaves every non-Escape key without effect, whatever is focused |
| `MenuSurface.SingletonRingWrapsOntoItself` | src/menu-surface/component.ts:127-129 | with one focusable descendant, Tab or Shift+Tab on it keeps focus there and prevents default |
| `MenuSurface.KeydownKeepsFocusInside` | src/menu-surface/component.ts:88-102 | after opening, a keydown either leaves focus alone or moves it to an element the surface root contains |
| `Pixels.PxRoundTrip` | src/menu-surface/component.ts:239 | the `${n}px` text of an integer reads back as that integer |
| `Pixels.FormatPxInjective` | src/menu-surface/component.ts:239 | distinct distances are written as distinct style values |
| `Dom.Closest` | src/dialog/component.ts:151 | the result is the nearest inclusive ancestor matching the selector, absent iff no ancestor matches |
| `Dom.QuerySelectorAll` | src/menu-surface/component.ts:127 | holds exactly the strict descendants of the root that match; its first element has no match before it in tree order and its last has none after it |
| `Dom.QuerySelector` | src/dialog/component.ts:88 | the first matching strict descendant in tree order, absent iff there is none |
| `Dom.QuerySelectorIsFirstOfAll` | src/menu-surface/component.ts:127-128 | querySelector is the first element of querySelectorAll |
| `Dom.GetAttribute` | src/dialog/component.ts:152 | a value is present iff the element matches the attribute selector, and it is the attribute's value |
| `Dialog.Initialize` | src/dialog/component.ts:84-98 | fails iff no descendant matches the container selector; on success the container matches and the default button is the first matching descendant |
| `Dialog.EventTargetMatches` | src/dialog/component.ts:143-145 | false for a missing target, otherwise whether the target matches |
| `Dialog.GetActionFromEvent` | src/dialog/component.ts:147-153 | `''` for a missing target; otherwise null iff no inclusive ancestor has an action attribute, else the value on the nearest one |
| `Dialog.ClickDefaultButton` | src/dialog/component.ts:155-157 | clicks the default button, and is a no-op without one |
| `Dialog.HandleInteraction` | src/dialog/component.ts:123-141 | at most one effect; a scrim click yields one non-bubbling close |
| `Dialog.InteractionClosesIff` | src/dialog/component.ts:131-136 | the dialog asks to close iff the event is a scrim click or a click/Space/Enter whose action is non-empty |
| `Dialog.InteractionClicksDefaultIff` | src/dialog/component.ts:137-138 | the default button is clicked iff it is Enter (not a scrim click) with no truthy action on a non-suppressing target and a default button exists, and then it is that button |
| `Dialog.InteractionOtherwiseInert` | src/dialog/component.ts:123-141 | outside those cases the handler does nothing, including Enter without an action when there is no default button |
| `Dialog.ScrimClickIgnoresActions` | src/dialog/component.ts:130-132 | a scrim click's outcome does not depend on any action attribute |
| `Dialog.HandleDocumentKeydown` | src/dialog/component.ts:159-164 | one close iff the key is Escape (by key or by keyCode 27), otherwise nothing |
| `Menu.InitialSync` | src/menu/component.ts:58-60 | a present list is made to wrap focus with its items unchanged; an absent list stays absent |
| `Menu.Items` | src/menu/component.ts:106-108 | the list's elements when there is a list, empty without one |
| `Menu.GetOptionByIndex` | src/menu/component.ts:128-136 | the item at an index within bounds, null at or past the end, undefined at a negative index |
| `Menu.WrapFocus` | src/menu/component.ts:91-93 | false without a list |
| `Menu.SetWrapFocus` | src/menu/component.ts:95-99 | without a list nothing changes; with one the getter then reads the value; items are untouched |
| `Menu.GetElementIndex` | src/menu/component.ts:184 | -1 iff the element is not an item, otherwise the position of its first occurrence |
| `Seqs.IndexOf` | src/menu/component.ts:184 | -1 iff absent, otherwise the first position holding the value |
| `Menu.GetSelectedElementIndex` | src/menu/component.ts:186-189 | -1 without a selected item in the group; otherwise the selected item's first position among the items (-1 when it is not among them) |
| `Menu.HandleAfterOpened` | src/menu/component.ts:199-204 | focus moves to the first item iff there is one, otherwise it is unchanged |
| `Menu.SetOpen` | src/menu/component.ts:83-89 | the open getter then reads the value, and the surface is exactly the surface's own setter applied |
| `Menu.ElementIndexRoundTrip` | src/menu/component.ts:128-136 | the option at an item's index is that item |
| `Menu.OptionIndexRoundTrip` | src/menu/component.ts:184 | the index of the item at position i is at most i, and exactly i when items are distinct |
| `Menu.AfterOpenedFocusesFirstOption` | src/menu/component.ts:199-204 | after opening, focus goes to option 0 when it is an item and stays when it is null |
| `Menu.NoListIsInert` | src/menu/component.ts:91-108 | without a list: no items, null at every non-negative index, wrap-focus false after any set, no focus move on open |
| `Menu.SetOpenDelegates` | src/menu/component.ts:87-88 | opening the menu records the surface's first focusable descendant; closing reads back closed |
| `MenuSurface.IsFirstElementFocused` | src/menu-surface/component.ts:216-217 | false while no first element is recorded, otherwise whether it is the focused element |
| `MenuSurface.IsLastElementFocused` | src/menu-surface/component.ts:218-219 | false while no last element is recorded, otherwise whether it is the focused element |
| `MenuSurface.FocusedQueriesAfterOpen` | src/menu-surface/component.ts:127-129 | after opening, first-focused holds exactly on the first focusable descendant and last-focused exactly on the last; with none, neither ever holds |
| `MenuSurface.ClickOnFocusableKeepsOpen` | src/menu-surface/component.ts:106-110 | a click on any focusable descendant of the surface has no effect |
| `MenuSurface.ClickOnTopLevelCloses` | src/menu-surface/component.ts:106-112 | a click on a parentless element other than the root, or with no target, asks to close exactly once |
| `MenuSurface.ClickOutsideCloses` | src/menu-surface/component.ts:106-112 | a click on any element that is neither the root nor one of its descendants asks to close exactly once |
| `MenuSurface.RestoreFromOutsideKeepsFocus` | src/menu-surface/component.ts:209-215 | while focus is on an element outside the surface, restoring focus leaves it there |
| `Dom.Contains` | src/menu-surface/component.ts:108 | `root.contains`: true exactly for the root itself and its descendants; false for null and for every other element |
| `Dom.Matches` | src/dialog/component.ts:144 | an attribute selector matches by the attribute's presence, any other by the document's matching set |
| `Seqs.FilterAppend` | src/menu-surface/component.ts:127 | filtering keeps order: filtering a concatenation concatenates the filtered parts |
| `Seqs.FilterEnds` | src/menu-surface/component.ts:128-129 | the first and last kept elements have no satisfying element before, respectively after, them |
| `Dialog.EscapeInsideClosesOnce` | src/dialog/component.ts:159-164 | an Escape keydown inside the dialog reaches both listeners but asks to close exactly once, through the document handler |
| `Dialog.MatchingTargetIsOwnClosest` | src/dialog/component.ts:143-153 | a target that carries an action is its own nearest match and yields its own action |
| `Dialog.DefaultButtonIsFirstMatch` | src/dialog/component.ts:155-157 | after initialize, the clicked default button is the first descendant matching the default-button selector |
| `Menu.IsOpen` | src/menu/component.ts:83-85 | reads the surface's open flag; after the setter it reads back the value set |
| `Menu.SelectedIndexRoundTrip` | src/menu/component.ts:186-189 | the option at the selected item's reported index is that item, whenever it is among the items |

## Left out

- The surface positioning geometry. Corner flipping, clamping, hoisting offsets and max-height are computed in the menu-surface foundation, which is not part of this model. The dimension getters and `setMaxHeight` are browser reads and plain writes of its results.
- The foundation classes of the menu surface, dialog and menu, and the focus-trap library. They are foreign code. The surface's open flag is a field set by the `open` setter, standing for `isOpen()` after `open()`/`close()`.
- `MDCComponent` plumbing: `listen`/`unlisten`/`emit` bindings, `destroy`, `attachTo`, factories. This is event-binding glue.
- Class toggling and style reads: `addClass`/`removeClass`/`hasClass`, `isRtl`, `setTransformOrigin`, body classes, and the per-index class and attribute writes on menu items. These are browser I/O.
- Forwarders that only call a foundation: quick open, anchor corner and margin, fixed position, hoisting, absolute position, anchor element, and the dialog's `layout`/`open`/`close`/action getters and setters.
- The surface's `initialSyncWithDOM` anchor and fixed-class detection. They only feed the geometry.
- Dialog button stacking and reversal, content scrollability, and focus-trap activation. These depend on layout measurement and helpers that are not part of this model.
- Menu `notifySelected`, `closeSurface`, `handleItemAction` and keydown forwarding. These are event emission and foundation calls.
- `src/snackbar.js` and `src/material-components-web-elm.js`. They are custom-element lifecycle glue and side-effect imports.
- `MDCList`, the menu's list component, is foreign code. The model reduces it to a record with a fixed sequence of item elements and a `wrapFocus` flag that reads back the last value set. This is also why the `Menu.SetWrapFocus` read-back holds.
- `element.focus()` always moves focus to that element. The browser may refuse for a disabled or hidden element. Every element has a `focus` method, so the code's `.focus` existence checks always pass.
- MenuSurface.SetPosition: distances are integers. Fractional pixel values are not modelled, and neither is JavaScript's exponent notation at magnitudes of 10^21 and above. A key present with an `undefined` value is not modelled either.
- Dom.Ancestors: the parent walk stops after as many steps as there are parent links. This cuts nothing off in a real (acyclic) document. A cyclic parent map is not a document.
- Menu.GetOptionByIndex: indices are integers. A fractional index, which JavaScript also reads as `undefined`, is not modelled.

=== FILE: dialog.dfy ===
/** The dialog's click/keydown dispatch and its document Escape handler
    (src/dialog/component.ts). */
module Dialog {
  import opened Wrappers
  import opened Dom
  import opened Events

  /** The event the dialog dispatches, not bubbling, to ask for closing. */
  const CloseEvent := "MDCDialog:close"

  /** The parts `initialize` collects from under the dialog root. */
  datatype DialogParts = DialogParts(
    root: Elem,
    container: Elem,
    content: Option<Elem>,
    buttons: seq<Elem>,
    defaultButton: Option<Elem>)

  /** `initialize` throws when the root holds no container element. */
  datatype InitError = MissingContainer

  /** `initialize`: finds the container (required), the content, the buttons and the default button. */
  function Initialize(doc: Document, root: Elem): (r: Result<DialogParts, InitError>)
    ensures r.Failure? <==> forall i :: 0 <= i < |doc.order| ==>
              !(IsDescendant(doc, root, doc.order[i]) && Matches(doc, doc.order[i], ContainerSelector))
    ensures r.Success? ==> r.value.root == root
    ensures r.Success? ==> IsDescendant(doc, root, r.value.container) && Matches(doc, r.value.container, ContainerSelector)
    ensures r.Success? ==> r.value.defaultButton == QuerySelector(doc, root, DefaultButtonSelector)
    ensures r.Success? ==> forall i :: 0 <= i < |r.value.buttons| ==>
              IsDescendant(doc, root, r.value.buttons[i]) && Matches(doc, r.value.buttons[i], ButtonSelector)
  {
    match QuerySelector(doc, root, ContainerSelector)
    case None => Failure(MissingContainer)
    case Some(container) =>
      Success(DialogParts(
        root,
        container,
        QuerySelector(doc, root, ContentSelector),
        QuerySelectorAll(doc, root, ButtonSelector),
        QuerySelector(doc, root, DefaultButtonSelector)))
  }

  /** `eventTargetMatches`: false for a missing target. */
  function EventTargetMatches(doc: Document, target: Option<Elem>, sel: Selector): (r: bool)
    ensures target.None? ==> !r
    ensures target.Some? ==> (r <==> Matches(doc, target.value, sel))
  {
    target.Some? && Matches(doc, target.value, sel)
  }

  /** `getActionFromEvent`: `''` without a target, otherwise the action
      attribute of the nearest inclusive ancestor carrying one, or null. */
  function GetActionFromEvent(doc: Document, target: Option<Elem>): (r: Option<string>)
    ensures target.None? ==> r == Some("")
    ensures target.Some? ==>
              (r.None? <==> forall i :: 0 <= i < |Ancestors(doc, target.value)| ==>
                               GetAttribute(doc, Ancestors(doc, target.value)[i], DialogAction).None?)
    ensures target.Some? && r.Some? ==>
              exists k :: 0 <= k < |Ancestors(doc, target.value)| &&
                GetAttribute(doc, Ancestors(doc, target.value)[k], DialogAction) == r &&
                forall j :: 0 <= j < k ==> GetAttribute(doc, Ancestors(doc, target.value)[j], DialogAction).None?
  {
    match target
    case None => Some("")
    case Some(t) =>
      match Closest(doc, t, HasAttribute(DialogAction))
      case None => None
      case Some(e) => GetAttribute(doc, e, DialogAction)
  }

  /** JavaScript truthiness of an action: neither null nor the empty string. */
  predicate IsTruthy(action: Option<string>) {
    action.Some? && action.value != ""
  }

  /** `clickDefaultButton`. */
  function ClickDefaultButton(d: DialogParts): (fx: seq<Effect>)
    ensures d.defaultButton.None? ==> fx == []
    ensures d.defaultButton.Some? ==> fx == [ClickOn(d.defaultButton.value)]
  {
    if d.defaultButton.Some? then [ClickOn(d.defaultButton.value)] else []
  }

  /** `handleInteraction`, the click and keydown listener on the dialog root. */
  function HandleInteraction(doc: Document, d: DialogParts, evt: Event): (fx: seq<Effect>)
    ensures |fx| <= 1
    ensures IsClick(evt) && EventTargetMatches(doc, evt.target, ScrimSelector) ==> fx == [Emit(CloseEvent, false)]
  {
    var isClick := IsClick(evt);
    var isScrim := EventTargetMatches(doc, evt.target, ScrimSelector);
    var isDefault := !EventTargetMatches(doc, evt.target, SuppressDefaultPressSelector);
    if isClick && isScrim then [Emit(CloseEvent, false)]
    else if isClick || IsSpace(evt) || IsEnter(evt) then
      var action := GetActionFromEvent(doc, evt.target);
      if IsTruthy(action) then [Emit(CloseEvent, false)]
      else if IsEnter(evt) && isDefault then ClickDefaultButton(d)
      else []
    else []
  }

  /** `handleDocumentKeydown`: Escape anywhere in the document asks to close. */
  function HandleDocumentKeydown(evt: Event): (fx: seq<Effect>)
    ensures IsEscape(evt) ==> fx == [Emit(CloseEvent, false)]
    ensures !IsEscape(evt) ==> fx == []
  {
    if IsEscape(evt) then [Emit(CloseEvent, false)] else []
  }

  // ---- The decision table of handleInteraction ----

  /** The event is one handleInteraction looks at an action for. */
  predicate IsPress(evt: Event) { IsClick(evt) || IsSpace(evt) || IsEnter(evt) }

  /** The dialog asks to close exactly on a scrim click or a press on an element with an action. */
  lemma InteractionClosesIff(doc: Document, d: DialogParts, evt: Event)
    ensures HandleInteraction(doc, d, evt) == [Emit(CloseEvent, false)] <==>
              (IsClick(evt) && EventTargetMatches(doc, evt.target, ScrimSelector)) ||
              (IsPress(evt) && IsTruthy(GetActionFromEvent(doc, evt.target)))
  {
  }

  /** The default button is clicked exactly on Enter with no action, on a
      target that does not suppress it, when there is a default button. */
  lemma InteractionClicksDefaultIff(doc: Document, d: DialogParts, evt: Event)
    ensures (exists b: Elem :: HandleInteraction(doc, d, evt) == [ClickOn(b)]) <==>
              !(IsClick(evt) && EventTargetMatches(doc, evt.target, ScrimSelector)) &&
              IsEnter(evt) && !IsTruthy(GetActionFromEvent(doc, evt.target)) &&
              !EventTargetMatches(doc, evt.target, SuppressDefaultPressSelector) &&
              d.defaultButton.Some?
    ensures forall b: Elem :: HandleInteraction(doc, d, evt) == [ClickOn(b)] ==> d.defaultButton == Some(b)
  {
    if !(IsClick(evt) && EventTargetMatches(doc, evt.target, ScrimSelector)) &&
       IsEnter(evt) && !IsTruthy(GetActionFromEvent(doc, evt.target)) &&
       !EventTargetMatches(doc, evt.target, SuppressDefaultPressSelector) &&
       d.defaultButton.Some? {
      assert HandleInteraction(doc, d, evt) == [ClickOn(d.defaultButton.value)];
    }
  }

  /** Everything else does nothing: a non-press, a Space or a click without an
      action, an Enter without an action on a suppressing target or with no default button. */
  lemma InteractionOtherwiseInert(doc: Document, d: DialogParts, evt: Event)
    requires !(IsClick(evt) && EventTargetMatches(doc, evt.target, ScrimSelector))
    requires !IsPress(evt) || !IsTruthy(GetActionFromEvent(doc, evt.target))
    requires !IsEnter(evt) || EventTargetMatches(doc, evt.target, SuppressDefaultPressSelector) || d.defaultButton.None?
    ensures HandleInteraction(doc, d, evt) == []
  {
  }

  /** A scrim click is decided without reading any action attribute: changing
      the attributes of the document does not change the outcome. */
  lemma ScrimClickIgnoresActions(doc: Document, attributes: map<Elem, map<Attr, string>>, d: DialogParts, evt: Event)
    requires IsClick(evt) && EventTargetMatches(doc, evt.target, ScrimSelector)
    ensures HandleInteraction(doc.(attributes := attributes), d, evt) == HandleInteraction(doc, d, evt)
  {
  }

  /** An Escape keydown inside the dialog reaches both listeners, yet the dialog
      asks to close exactly once: the interaction handler ignores it and the
      document handler closes. */
  lemma EscapeInsideClosesOnce(doc: Document, d: DialogParts, evt: Event)
    requires evt.kind == "keydown" && evt.key == Some("Escape") && evt.keyCode == Some(27)
    ensures HandleInteraction(doc, d, evt) == []
    ensures EmitCount(HandleInteraction(doc, d, evt) + HandleDocumentKeydown(evt), CloseEvent) == 1
  {
    assert HandleDocumentKeydown(evt) == [Emit(CloseEvent, false)];
    assert [Emit(CloseEvent, false)][1..] == [];
  }

  /** A target that itself matches a selector is its own nearest match, so a
      target carrying an action yields that action. */
  lemma MatchingTargetIsOwnClosest(doc: Document, t: Elem)
    requires EventTargetMatches(doc, Some(t), HasAttribute(DialogAction))
    ensures Closest(doc, t, HasAttribute(DialogAction)) == Some(t)
    ensures GetActionFromEvent(doc, Some(t)) == GetAttribute(doc, t, DialogAction)
  {
  }

  /** After initialize, the button clickDefaultButton clicks is the first
      descendant of the root matching the default-button selector. */
  lemma DefaultButtonIsFirstMatch(doc: Document, root: Elem, d: DialogParts, b: Elem)
    ensures Initialize(doc, root) == Success(d) && ClickDefaultButton(d) == [ClickOn(b)] ==>
              Selects(doc, root, DefaultButtonSelector, b) &&
              exists k :: 0 <= k < |doc.order| && doc.order[k] == b &&
                forall j :: 0 <= j < k ==> !Selects(doc, root, DefaultButtonSelector, doc.order[j])
  {
  }
}

=== FILE: dom.dfy ===
/** An abstract document: elements, their parents, the selectors they match and
    their attributes, with the `matches`, `closest`, `contains`, `querySelector`
    and `querySelectorAll` queries the components use. */
module Dom {
  import opened Wrappers
  import opened Seqs

  /** An element, identified abstractly. */
  type Elem = nat

  /** Attributes the components read by name. */
  datatype Attr = DialogAction

  /** The selectors the components query. Their text is a constant of the
      foundation library; here only which elements match each one matters.
      `HasAttribute(a)` is the attribute selector `[a]`. */
  datatype Selector =
    | ScrimSelector
    | SuppressDefaultPressSelector
    | ContainerSelector
    | ContentSelector
    | ButtonSelector
    | DefaultButtonSelector
    | FocusableElements
    | MenuSelectedListItem
    | HasAttribute(attr: Attr)

  /** A snapshot of the document. `order` lists its elements in tree order,
      `parent` is `parentElement` (absent at a root), `matching` gives the
      elements each selector other than an attribute selector matches. */
  datatype Document = Document(
    order: seq<Elem>,
    parent: map<Elem, Elem>,
    matching: map<Selector, set<Elem>>,
    attributes: map<Elem, map<Attr, string>>)

  /** `e.matches(sel)`: an attribute selector by the attribute's presence,
      any other selector by the document's matching set. */
  function Matches(doc: Document, e: Elem, sel: Selector): (r: bool)
    ensures sel.HasAttribute? ==> (r <==> e in doc.attributes && sel.attr in doc.attributes[e])
    ensures !sel.HasAttribute? ==> (r <==> sel in doc.matching && e in doc.matching[sel])
  {
    match sel
    case HasAttribute(a) => e in doc.attributes && a in doc.attributes[e]
    case _ => sel in doc.matching && e in doc.matching[sel]
  }

  /** `e.getAttribute(a)`: the value, or null when the attribute is absent. */
  function GetAttribute(doc: Document, e: Elem, a: Attr): (r: Option<string>)
    ensures r.Some? <==> Matches(doc, e, HasAttribute(a))
    ensures r.Some? ==> r.value == doc.attributes[e][a]
  {
    if e in doc.attributes && a in doc.attributes[e] then Some(doc.attributes[e][a]) else None
  }

  /** `e`, its parent, its grandparent, ... following at most `fuel` parent links. */
  function AncestorsWithin(doc: Document, e: Elem, fuel: nat): (c: seq<Elem>)
    ensures 1 <= |c| <= fuel + 1 && c[0] == e
    ensures forall i :: 0 <= i < |c| - 1 ==> c[i] in doc.parent && doc.parent[c[i]] == c[i + 1]
    decreases fuel
  {
    if fuel > 0 && e in doc.parent then [e] + AncestorsWithin(doc, doc.parent[e], fuel - 1)
    else [e]
  }

  /** The inclusive ancestor chain of `e`. A document tree with n parent links
      has no chain longer than n + 1, so the bound cuts nothing off. */
  function Ancestors(doc: Document, e: Elem): seq<Elem> {
    AncestorsWithin(doc, e, |doc.parent|)
  }

  /** `root.contains(e)`: inclusive, and false for a null argument. */
  function Contains(doc: Document, root: Elem, e: Option<Elem>): (r: bool)
    ensures r <==> e.Some? && (e.value == root || IsDescendant(doc, root, e.value))
    // Corollaries for the two shapes of element a caller meets most:
    ensures e.Some? && e.value in doc.parent && doc.parent[e.value] == root ==> r
    ensures e.Some? && e.value != root && e.value !in doc.parent ==> !r
  {
    e.Some? && root in Ancestors(doc, e.value)
  }

  /** `e` lies strictly below `root`. */
  predicate IsDescendant(doc: Document, root: Elem, e: Elem) {
    root in Ancestors(doc, e)[1..]
  }

  /** `e` is one of the elements `root.querySelectorAll(sel)` returns. */
  predicate Selects(doc: Document, root: Elem, sel: Selector, e: Elem) {
    IsDescendant(doc, root, e) && Matches(doc, e, sel)
  }

  /** `e.closest(sel)`: the nearest inclusive ancestor matching `sel`, or null. */
  function Closest(doc: Document, e: Elem, sel: Selector): (r: Option<Elem>)
    ensures r.None? <==> forall i :: 0 <= i < |Ancestors(doc, e)| ==> !Matches(doc, Ancestors(doc, e)[i], sel)
    ensures r.Some? ==> Matches(doc, r.value, sel)
    ensures r.Some? ==> exists k :: 0 <= k < |Ancestors(doc, e)| && Ancestors(doc, e)[k] == r.value
                          && forall j :: 0 <= j < k ==> !Matches(doc, Ancestors(doc, e)[j], sel)
    ensures Matches(doc, e, sel) ==> r == Some(e)
  {
    var c := Ancestors(doc, e);
    var k := IndexWhere(c, x => Matches(doc, x, sel));
    if k == -1 then None else Some(c[k])
  }

  /** `root.querySelectorAll(sel)`: matching strict descendants in tree order. */
  function QuerySelectorAll(doc: Document, root: Elem, sel: Selector): (r: seq<Elem>)
    ensures forall i :: 0 <= i < |r| ==> r[i] in doc.order && Selects(doc, root, sel, r[i])
    ensures forall i :: 0 <= i < |doc.order| && Selects(doc, root, sel, doc.order[i]) ==> doc.order[i] in r
    ensures |r| > 0 ==> exists k :: 0 <= k < |doc.order| && doc.order[k] == r[0]
                          && forall j :: 0 <= j < k ==> !Selects(doc, root, sel, doc.order[j])
    ensures |r| > 0 ==> exists k :: 0 <= k < |doc.order| && doc.order[k] == r[|r| - 1]
                          && forall j :: k < j < |doc.order| ==> !Selects(doc, root, sel, doc.order[j])
  {
    var p := x => Selects(doc, root, sel, x);
    var r := Filter(doc.order, p);
    FilterEnds(doc.order, p);
    r
  }

  /** `root.querySelector(sel)`: the first matching strict descendant in tree order, or null. */
  function QuerySelector(doc: Document, root: Elem, sel: Selector): (r: Option<Elem>)
    ensures r.None? <==> forall i :: 0 <= i < |doc.order| ==> !Selects(doc, root, sel, doc.order[i])
    ensures r.Some? ==> r.value in doc.order && Selects(doc, root, sel, r.value)
    ensures r.Some? ==> exists k :: 0 <= k < |doc.order| && doc.order[k] == r.value
                          && forall j :: 0 <= j < k ==> !Selects(doc, root, sel, doc.order[j])
  {
    var k := IndexWhere(doc.order, x => Selects(doc, root, sel, x));
    if k == -1 then None else Some(doc.order[k])
  }

  /** querySelector is the head of querySelectorAll. */
  lemma QuerySelectorIsFirstOfAll(doc: Document, root: Elem, sel: Selector)
    ensures var all := QuerySelectorAll(doc, root, sel);
            QuerySelector(doc, root, sel) == if |all| == 0 then None else Some(all[0])
  {
  }
}

=== FILE: events.dfy ===
/** Browser events as records and the side effects a handler can request. */
module Events {
  import opened Wrappers
  import opened Dom

  /** A click or keydown event. `key` and `keyCode` are undefined on a mouse event. */
  datatype Event = Event(
    kind: string,
    key: Option<string>,
    keyCode: Option<int>,
    shiftKey: bool,
    target: Option<Elem>)

  predicate IsClick(evt: Event) { evt.kind == "click" }
  predicate IsEscape(evt: Event) { evt.key == Some("Escape") || evt.keyCode == Some(27) }
  predicate IsTab(evt: Event) { evt.key == Some("Tab") || evt.keyCode == Some(9) }
  predicate IsEnter(evt: Event) { evt.key == Some("Enter") || evt.keyCode == Some(13) }
  predicate IsSpace(evt: Event) { evt.key == Some("Space") || evt.keyCode == Some(32) }

  /** What a handler asks of the browser, in order. */
  datatype Effect =
    | Emit(name: string, bubbles: bool)   // dispatch a custom event
    | FocusOn(elem: Elem)                 // elem.focus()
    | PreventDefault                      // evt.preventDefault()
    | ClickOn(elem: Elem)                 // elem.click()

  /** The focused element after the effects run, starting from `active`. */
  function FocusAfter(active: Option<Elem>, fx: seq<Effect>): (r: Option<Elem>)
    ensures (forall i :: 0 <= i < |fx| ==> !fx[i].FocusOn?) ==> r == active
    ensures r != active ==> r.Some? && FocusOn(r.value) in fx
    decreases |fx|
  {
    if |fx| == 0 then active
    else
      var next := if fx[0].FocusOn? then Some(fx[0].elem) else active;
      var r := FocusAfter(next, fx[1..]);
      assert r != next ==> FocusOn(r.value) in fx[1..];
      r
  }

  /** How many times the effects dispatch the event `name`. */
  function EmitCount(fx: seq<Effect>, name: string): nat {
    if |fx| == 0 then 0
    else (if fx[0].Emit? && fx[0].name == name then 1 else 0) + EmitCount(fx[1..], name)
  }

  /** Running two effect lists in sequence: focus threads through. */
  lemma {:induction false} FocusAfterAppend(active: Option<Elem>, a: seq<Effect>, b: seq<Effect>)
    ensures FocusAfter(active, a + b) == FocusAfter(FocusAfter(active, a), b)
    decreases |a|
  {
    if |a| == 0 {
      assert a + b == b;
    } else {
      assert (a + b)[1..] == a[1..] + b;
      var next := if a[0].FocusOn? then Some(a[0].elem) else active;
      FocusAfterAppend(next, a[1..], b);
    }
  }

  /** Running two effect lists in sequence: dispatches add up. */
  lemma {:induction false} EmitCountAppend(a: seq<Effect>, b: seq<Effect>, name: string)
    ensures EmitCount(a + b, name) == EmitCount(a, name) + EmitCount(b, name)
    decreases |a|
  {
    if |a| == 0 {
      assert a + b == b;
    } else {
      assert (a + b)[1..] == a[1..] + b;
      EmitCountAppend(a[1..], b, name);
    }
  }
}

=== FILE: menu.dfy ===
/** The menu's item lookups, wrap-focus delegation and focus-on-open
    (src/menu/component.ts). */
module Menu {
  import opened Wrappers
  import opened Dom
  import opened Events
  import opened Seqs
  import MenuSurface

  /** The list component the menu may hold: its item elements and wrap-focus flag. */
  datatype List = List(listElements: seq<Elem>, wrapFocus: bool)

  /** A menu: its optional list and the menu surface it drives. */
  datatype MenuState = MenuState(list: Option<List>, surface: MenuSurface.Surface)

  /** What `getOptionByIndex` returns: an item, `null`, or `undefined` (an
      array read at a negative index). */
  datatype Lookup = Item(elem: Elem) | Null | Undefined

  /** `initialSyncWithDOM` as far as the list goes: a list already present is
      made to wrap focus. */
  function InitialSync(m: MenuState): (r: MenuState)
    ensures r.surface == m.surface
    ensures r.list.None? <==> m.list.None?
    ensures r.list.Some? ==> r.list.value.wrapFocus && r.list.value.listElements == m.list.value.listElements
  {
    match m.list
    case None => m
    case Some(l) => m.(list := Some(l.(wrapFocus := true)))
  }

  /** The `items` getter: the list's elements, or none without a list. */
  function Items(m: MenuState): (r: seq<Elem>)
    ensures m.list.None? ==> r == []
    ensures m.list.Some? ==> r == m.list.value.listElements
  {
    if m.list.Some? then m.list.value.listElements else []
  }

  /** `getOptionByIndex`. */
  function GetOptionByIndex(m: MenuState, index: int): (r: Lookup)
    ensures 0 <= index < |Items(m)| ==> r == Item(Items(m)[index])
    ensures index >= |Items(m)| ==> r == Null
    ensures index < 0 ==> r == Undefined
    ensures r.Item? ==> r.elem in Items(m)
  {
    var items := Items(m);
    if index < |items| then
      if index < 0 then Undefined else Item(items[index])
    else Null
  }

  /** The `wrapFocus` getter: false without a list. */
  function WrapFocus(m: MenuState): (r: bool)
    ensures m.list.None? ==> !r
  {
    if m.list.Some? then m.list.value.wrapFocus else false
  }

  /** The `wrapFocus` setter: forwarded to the list, ignored without one. */
  function SetWrapFocus(m: MenuState, value: bool): (r: MenuState)
    ensures m.list.None? ==> r == m
    ensures m.list.Some? ==> WrapFocus(r) == value
    ensures Items(r) == Items(m) && r.surface == m.surface
  {
    match m.list
    case None => m
    case Some(l) => m.(list := Some(l.(wrapFocus := value)))
  }

  /** Adapter `getElementIndex`: the element's position among the items, or -1. */
  function GetElementIndex(m: MenuState, e: Elem): (k: int)
    ensures k == -1 <==> e !in Items(m)
    ensures 0 <= k ==> k < |Items(m)| && Items(m)[k] == e
    ensures 0 <= k ==> forall j :: 0 <= j < k ==> Items(m)[j] != e
  {
    IndexOf(Items(m), e)
  }

  /** Adapter `getSelectedElementIndex`: -1 when the selection group holds no
      selected item, otherwise that item's index among the items (itself -1
      when it is not one of them). */
  function GetSelectedElementIndex(doc: Document, m: MenuState, group: Elem): (k: int)
    ensures -1 <= k < |Items(m)|
    ensures QuerySelector(doc, group, MenuSelectedListItem).None? ==> k == -1
    ensures var sel := QuerySelector(doc, group, MenuSelectedListItem);
            sel.Some? ==> k == IndexOf(Items(m), sel.value)
    ensures var sel := QuerySelector(doc, group, MenuSelectedListItem);
            sel.Some? && sel.value in Items(m) ==> 0 <= k && Items(m)[k] == sel.value
    ensures 0 <= k ==> var sel := QuerySelector(doc, group, MenuSelectedListItem);
                       sel.Some? && Items(m)[k] == sel.value
  {
    match QuerySelector(doc, group, MenuSelectedListItem)
    case None => -1
    case Some(selected) => GetElementIndex(m, selected)
  }

  /** The focused element after the surface reports it has opened: the first
      item when there is one, otherwise unchanged. */
  function HandleAfterOpened(m: MenuState, active: Option<Elem>): (next: Option<Elem>)
    ensures |Items(m)| > 0 ==> next == Some(Items(m)[0])
    ensures |Items(m)| == 0 ==> next == active
  {
    var items := Items(m);
    FocusAfter(active, if |items| > 0 then [FocusOn(items[0])] else [])
  }

  /** The `open` getter: the surface's open state. */
  function IsOpen(m: MenuState): (r: bool)
    ensures r == m.surface.isOpen
  {
    m.surface.isOpen
  }

  /** The `open` setter: handed unchanged to the surface. */
  function SetOpen(doc: Document, m: MenuState, value: bool): (r: MenuState)
    ensures IsOpen(r) == value
    ensures r.list == m.list
    ensures r.surface == MenuSurface.SetOpen(doc, m.surface, value)
  {
    m.(surface := MenuSurface.SetOpen(doc, m.surface, value))
  }

  // ---- Relations between the lookups ----

  /** Looking up the index of an item and then the option at that index gives the item back. */
  lemma ElementIndexRoundTrip(m: MenuState, e: Elem)
    requires e in Items(m)
    ensures GetOptionByIndex(m, GetElementIndex(m, e)) == Item(e)
  {
  }

  /** The option at an index, looked up again, is found at that index or an earlier duplicate. */
  lemma OptionIndexRoundTrip(m: MenuState, index: int)
    requires 0 <= index < |Items(m)|
    ensures var k := GetElementIndex(m, Items(m)[index]); 0 <= k <= index
    ensures (forall i, j :: 0 <= i < j < |Items(m)| ==> Items(m)[i] != Items(m)[j]) ==>
              GetElementIndex(m, Items(m)[index]) == index
  {
  }

  /** After opening, focus goes to option 0 when there is one and stays put when it is null. */
  lemma AfterOpenedFocusesFirstOption(m: MenuState, active: Option<Elem>)
    ensures GetOptionByIndex(m, 0).Item? ==> HandleAfterOpened(m, active) == Some(GetOptionByIndex(m, 0).elem)
    ensures GetOptionByIndex(m, 0) == Null ==> HandleAfterOpened(m, active) == active
  {
  }

  /** Without a list the menu is inert: no items, every non-negative index is null,
      wrap-focus reads false whatever was set, and opening focuses nothing. */
  lemma NoListIsInert(m: MenuState, index: nat, value: bool, active: Option<Elem>)
    requires m.list.None?
    ensures Items(m) == []
    ensures GetOptionByIndex(m, index) == Null
    ensures !WrapFocus(SetWrapFocus(m, value))
    ensures HandleAfterOpened(m, active) == active
  {
  }

  /** Setting `open` on the menu is the same as setting it on its surface:
      opening snapshots the surface's focusable descendants. */
  lemma SetOpenDelegates(doc: Document, m: MenuState)
    ensures SetOpen(doc, m, true).surface.firstFocusable == QuerySelector(doc, m.surface.root, FocusableElements)
    ensures IsOpen(SetOpen(doc, m, false)) == false
  {
  }

  /** The index reported for a selection group's selected item leads back to
      that item whenever it is one of the menu's items. */
  lemma SelectedIndexRoundTrip(doc: Document, m: MenuState, group: Elem)
    requires QuerySelector(doc, group, MenuSelectedListItem).Some?
    requires QuerySelector(doc, group, MenuSelectedListItem).value in Items(m)
    ensures GetOptionByIndex(m, GetSelectedElementIndex(doc, m, group)) ==
              Item(QuerySelector(doc, group, MenuSelectedListItem).value)
  {
  }
}

=== FILE: menu_surface.dfy ===
/** The menu surface's keyboard focus ring, body-click dismissal, focus
    save/restore and position style patch (src/menu-surface/component.ts). */
module MenuSurface {
  import opened Wrappers
  import opened Dom
  import opened Events
  import opened Pixels

  /** The event the surface dispatches, bubbling, to ask for closing. */
  const CloseEvent := "MDCMenu:close"

  /** The sparse distance record the foundation hands to setPosition. */
  datatype Distance = Distance(left: Option<int>, right: Option<int>, top: Option<int>, bottom: Option<int>)

  /** The inline style properties of the surface root that the adapter writes. */
  datatype Style = Style(left: string, right: string, top: string, bottom: string, maxHeight: string)

  /** The component's state: its root element, the foundation's open flag, the
      focusable snapshot taken on open, the focus saved by saveFocus, and the root's style. */
  datatype Surface = Surface(
    root: Elem,
    isOpen: bool,
    firstFocusable: Option<Elem>,
    lastFocusable: Option<Elem>,
    previousFocus: Option<Elem>,
    style: Style)

  /** The focusable descendants of the surface, in tree order. */
  function Focusables(doc: Document, s: Surface): seq<Elem> {
    QuerySelectorAll(doc, s.root, FocusableElements)
  }

  /** The `open` setter: opening snapshots the first and last focusable
      descendants; closing touches nothing but the foundation's flag. */
  function SetOpen(doc: Document, s: Surface, value: bool): (r: Surface)
    ensures r.isOpen == value
    ensures r.root == s.root && r.previousFocus == s.previousFocus && r.style == s.style
    ensures value ==> r.firstFocusable == QuerySelector(doc, s.root, FocusableElements)
    ensures value ==> (r.lastFocusable.None? <==> r.firstFocusable.None?)
    ensures value && r.lastFocusable.Some? ==>
              Selects(doc, s.root, FocusableElements, r.lastFocusable.value) &&
              exists k :: 0 <= k < |doc.order| && doc.order[k] == r.lastFocusable.value &&
                forall j :: k < j < |doc.order| ==> !Selects(doc, s.root, FocusableElements, doc.order[j])
    ensures !value ==> r.firstFocusable == s.firstFocusable && r.lastFocusable == s.lastFocusable
  {
    if value then
      var fs := Focusables(doc, s);
      QuerySelectorIsFirstOfAll(doc, s.root, FocusableElements);
      s.(isOpen := true,
         firstFocusable := if |fs| > 0 then Some(fs[0]) else None,
         lastFocusable := if |fs| > 0 then Some(fs[|fs| - 1]) else None)
    else
      s.(isOpen := false)
  }

  /** Adapter isFirstElementFocused: false while no first element is recorded. */
  function IsFirstElementFocused(s: Surface, active: Option<Elem>): (r: bool)
    ensures s.firstFocusable.None? ==> !r
    ensures r ==> active.Some?
    ensures s.firstFocusable.Some? ==> (r <==> active == s.firstFocusable)
  {
    s.firstFocusable.Some? && s.firstFocusable == active
  }

  /** Adapter isLastElementFocused: false while no last element is recorded. */
  function IsLastElementFocused(s: Surface, active: Option<Elem>): (r: bool)
    ensures s.lastFocusable.None? ==> !r
    ensures r ==> active.Some?
    ensures s.lastFocusable.Some? ==> (r <==> active == s.lastFocusable)
  {
    s.lastFocusable.Some? && s.lastFocusable == active
  }

  /** Adapter focusFirstElement: focuses the first focusable element, if any. */
  function FocusFirstElement(s: Surface): (fx: seq<Effect>)
    ensures s.firstFocusable.None? ==> fx == []
    ensures forall a :: FocusAfter(a, fx) == if s.firstFocusable.Some? then s.firstFocusable else a
    ensures forall e :: e in fx ==> e.FocusOn?
    ensures PreventDefault !in fx && forall name :: EmitCount(fx, name) == 0
  {
    if s.firstFocusable.Some? then [FocusOn(s.firstFocusable.value)] else []
  }

  /** Adapter focusLastElement: focuses the last focusable element, if any. */
  function FocusLastElement(s: Surface): (fx: seq<Effect>)
    ensures s.lastFocusable.None? ==> fx == []
    ensures forall a :: FocusAfter(a, fx) == if s.lastFocusable.Some? then s.lastFocusable else a
    ensures forall e :: e in fx ==> e.FocusOn?
    ensures PreventDefault !in fx && forall name :: EmitCount(fx, name) == 0
  {
    if s.lastFocusable.Some? then [FocusOn(s.lastFocusable.value)] else []
  }

  /** The keydown handler: Escape asks to close; Tab from the last focusable
      element wraps to the first, Shift+Tab from the first wraps to the last. */
  function HandleKeydown(s: Surface, active: Option<Elem>, evt: Event): (fx: seq<Effect>)
    ensures IsEscape(evt) ==> fx == [Emit(CloseEvent, true)]
    ensures !IsEscape(evt) ==> EmitCount(fx, CloseEvent) == 0
    ensures !IsEscape(evt) && IsTab(evt) && IsLastElementFocused(s, active) && !evt.shiftKey ==>
              FocusAfter(active, fx) == (if s.firstFocusable.Some? then s.firstFocusable else active) &&
              PreventDefault in fx
    ensures !IsEscape(evt) && IsTab(evt) && IsFirstElementFocused(s, active) && evt.shiftKey ==>
              FocusAfter(active, fx) == (if s.lastFocusable.Some? then s.lastFocusable else active) &&
              PreventDefault in fx
    ensures PreventDefault in fx <==>
              !IsEscape(evt) && IsTab(evt) &&
              ((IsLastElementFocused(s, active) && !evt.shiftKey) || (IsFirstElementFocused(s, active) && evt.shiftKey))
    ensures PreventDefault !in fx ==> FocusAfter(active, fx) == active
    ensures !IsEscape(evt) && PreventDefault !in fx ==> fx == []
    ensures !IsEscape(evt) ==> forall e :: e in fx ==> e.FocusOn? || e.PreventDefault?
  {
    if IsEscape(evt) then [Emit(CloseEvent, true)]
    else if IsTab(evt) then
      if IsLastElementFocused(s, active) && !evt.shiftKey then WrapFocus(FocusFirstElement(s), active)
      else if IsFirstElementFocused(s, active) && evt.shiftKey then WrapFocus(FocusLastElement(s), active)
      else []
    else []
  }

  /** Moves focus across the ring's ends and suppresses the browser's own Tab move. */
  function WrapFocus(focus: seq<Effect>, active: Option<Elem>): (fx: seq<Effect>)
    requires PreventDefault !in focus && EmitCount(focus, CloseEvent) == 0
    ensures FocusAfter(active, fx) == FocusAfter(active, focus)
    ensures PreventDefault in fx && EmitCount(fx, CloseEvent) == 0
    ensures forall e :: e in fx ==> e in focus || e.PreventDefault?
  {
    FocusAfterAppend(active, focus, [PreventDefault]);
    EmitCountAppend(focus, [PreventDefault], CloseEvent);
    focus + [PreventDefault]
  }

  /** The body click handler: a click outside the surface asks to close. */
  function HandleBodyClick(doc: Document, s: Surface, target: Option<Elem>): (fx: seq<Effect>)
    ensures Contains(doc, s.root, target) ==> fx == []
    ensures !Contains(doc, s.root, target) ==> fx == [Emit(CloseEvent, true)]
  {
    if Contains(doc, s.root, target) then [] else [Emit(CloseEvent, true)]
  }

  /** Adapter saveFocus: remembers the focused element. */
  function SaveFocus(s: Surface, active: Option<Elem>): (r: Surface)
    ensures r.previousFocus == active
    ensures r.(previousFocus := s.previousFocus) == s
  {
    s.(previousFocus := active)
  }

  /** Adapter restoreFocus: the focused element afterwards. Focus returns to
      the saved element only while it is still inside the surface. */
  function RestoreFocus(doc: Document, s: Surface, active: Option<Elem>): (next: Option<Elem>)
    ensures !Contains(doc, s.root, active) ==> next == active
    ensures Contains(doc, s.root, active) && s.previousFocus.Some? ==> next == s.previousFocus
    ensures s.previousFocus.None? ==> next == active
  {
    var fx := if Contains(doc, s.root, active) && s.previousFocus.Some? then [FocusOn(s.previousFocus.value)] else [];
    FocusAfter(active, fx)
  }

  /** Adapter setPosition: each side gets `<n>px` when the foundation gave a
      distance for it and is cleared otherwise; maxHeight is left alone. */
  function SetPosition(style: Style, pos: Distance): (r: Style)
    ensures ParsePx(r.left) == pos.left && (r.left == "" <==> pos.left.None?)
    ensures ParsePx(r.right) == pos.right && (r.right == "" <==> pos.right.None?)
    ensures ParsePx(r.top) == pos.top && (r.top == "" <==> pos.top.None?)
    ensures ParsePx(r.bottom) == pos.bottom && (r.bottom == "" <==> pos.bottom.None?)
    ensures r.maxHeight == style.maxHeight
  {
    Style(Slot(pos.left), Slot(pos.right), Slot(pos.top), Slot(pos.bottom), style.maxHeight)
  }

  /** One style slot: `<n>px`, or `''` to clear it. */
  function Slot(d: Option<int>): (v: string)
    ensures ParsePx(v) == d && (v == "" <==> d.None?)
  {
    match d
    case None => ""
    case Some(n) => PxRoundTrip(n); FormatPx(n)
  }

  /** The side slots after setPosition depend on the new distances alone. */
  lemma SetPositionForgetsPrevious(a: Style, b: Style, pos: Distance)
    ensures var ra, rb := SetPosition(a, pos), SetPosition(b, pos);
            ra.left == rb.left && ra.right == rb.right && ra.top == rb.top && ra.bottom == rb.bottom
  {
  }

  // ---- The focus ring as set up by opening ----

  /** Tab on the last focusable descendant moves focus to the first one. */
  lemma TabWrapsToFirst(doc: Document, s: Surface, evt: Event)
    requires |Focusables(doc, s)| > 0
    requires IsTab(evt) && !IsEscape(evt) && !evt.shiftKey
    ensures var fs := Focusables(doc, s);
            var r := SetOpen(doc, s, true);
            var fx := HandleKeydown(r, Some(fs[|fs| - 1]), evt);
            FocusAfter(Some(fs[|fs| - 1]), fx) == Some(fs[0]) && PreventDefault in fx
  {
  }

  /** Shift+Tab on the first focusable descendant moves focus to the last one. */
  lemma ShiftTabWrapsToLast(doc: Document, s: Surface, evt: Event)
    requires |Focusables(doc, s)| > 0
    requires IsTab(evt) && !IsEscape(evt) && evt.shiftKey
    ensures var fs := Focusables(doc, s);
            var r := SetOpen(doc, s, true);
            var fx := HandleKeydown(r, Some(fs[0]), evt);
            FocusAfter(Some(fs[0]), fx) == Some(fs[|fs| - 1]) && PreventDefault in fx
  {
  }

  /** With nothing focusable inside, no key is ever intercepted and focus never moves. */
  lemma EmptyRingNeverTraps(doc: Document, s: Surface, active: Option<Elem>, evt: Event)
    requires |Focusables(doc, s)| == 0
    requires !IsEscape(evt)
    ensures HandleKeydown(SetOpen(doc, s, true), active, evt) == []
  {
  }

  /** With one focusable descendant, Tab from it wraps onto itself. */
  lemma SingletonRingWrapsOntoItself(doc: Document, s: Surface, evt: Event)
    requires |Focusables(doc, s)| == 1
    requires IsTab(evt) && !IsEscape(evt)
    ensures var e := Focusables(doc, s)[0];
            var fx := HandleKeydown(SetOpen(doc, s, true), Some(e), evt);
            FocusAfter(Some(e), fx) == Some(e) && PreventDefault in fx
  {
  }

  /** A keydown either leaves focus where it was or moves it to an element inside the surface. */
  lemma KeydownKeepsFocusInside(doc: Document, s: Surface, active: Option<Elem>, evt: Event)
    ensures var fx := HandleKeydown(SetOpen(doc, s, true), active, evt);
            var next := FocusAfter(active, fx);
            next == active || Contains(doc, s.root, next)
  {
  }

  /** After opening, the first/last-focused queries hold exactly on the ends of
      the focusable descendants; with none, they never hold. */
  lemma FocusedQueriesAfterOpen(doc: Document, s: Surface, active: Option<Elem>)
    ensures var fs := Focusables(doc, s);
            var r := SetOpen(doc, s, true);
            && (IsFirstElementFocused(r, active) <==> |fs| > 0 && active == Some(fs[0]))
            && (IsLastElementFocused(r, active) <==> |fs| > 0 && active == Some(fs[|fs| - 1]))
  {
  }

  /** A click on any focusable descendant of the surface never asks to close. */
  lemma ClickOnFocusableKeepsOpen(doc: Document, s: Surface, e: Elem)
    requires e in Focusables(doc, s)
    ensures HandleBodyClick(doc, s, Some(e)) == []
  {
  }

  /** A click on a top-level element of the document (one without a parent)
      other than the surface root, or a click with no target, asks to close exactly once. */
  lemma ClickOnTopLevelCloses(doc: Document, s: Surface, target: Option<Elem>)
    requires target.None? || (target.value != s.root && target.value !in doc.parent)
    ensures HandleBodyClick(doc, s, target) == [Emit(CloseEvent, true)]
  {
  }

  /** A click on any element that is neither the root nor below it asks to close exactly once. */
  lemma ClickOutsideCloses(doc: Document, s: Surface, t: Elem)
    requires t != s.root && !IsDescendant(doc, s.root, t)
    ensures HandleBodyClick(doc, s, Some(t)) == [Emit(CloseEvent, true)]
  {
  }

  /** While focus is on an element outside the surface, restoring focus leaves it there. */
  lemma RestoreFromOutsideKeepsFocus(doc: Document, s: Surface, t: Elem)
    requires t != s.root && !IsDescendant(doc, s.root, t)
    ensures RestoreFocus(doc, s, Some(t)) == Some(t)
  {
  }

  /** Saving focus and later restoring it while focus is inside the surface
      returns focus to the saved element. */
  lemma SaveThenRestore(doc: Document, s: Surface, saved: Elem, active: Option<Elem>)
    requires Contains(doc, s.root, active)
    ensures RestoreFocus(doc, SaveFocus(s, Some(saved)), active) == Some(saved)
  {
  }
}

=== FILE: pixels.dfy ===
/** The `${n}px` strings the menu surface writes into its inline style, and
    their reading back. */
module Pixels {
  import opened Wrappers

  predicate IsDigit(c: char) { '0' <= c <= '9' }

  function DigitChar(d: nat): (c: char)
    requires d < 10
    ensures IsDigit(c) && c as int - '0' as int == d
  {
    ('0' as int + d) as char
  }

  /** Decimal digits of `n`, most significant first, without leading zeros. */
  function NatToDecimal(n: nat): (s: string)
    ensures |s| >= 1
    ensures forall i :: 0 <= i < |s| ==> IsDigit(s[i])
    ensures |s| > 1 ==> s[0] != '0'
  {
    if n < 10 then [DigitChar(n)] else NatToDecimal(n / 10) + [DigitChar(n % 10)]
  }

  /** The value of a non-empty string of decimal digits, or None. */
  function ParseDigits(s: string): Option<nat> {
    if |s| == 0 || !IsDigit(s[|s| - 1]) then None
    else
      var d := s[|s| - 1] as int - '0' as int;
      if |s| == 1 then Some(d)
      else match ParseDigits(s[..|s| - 1])
        case None => None
        case Some(h) => Some(h * 10 + d)
  }

  /** An integer as JavaScript prints it: an optional minus sign and plain digits. */
  function IntToDecimal(n: int): string {
    if n < 0 then "-" + NatToDecimal(-n) else NatToDecimal(n)
  }

  function ParseDecimal(s: string): (r: Option<int>)
  {
    if |s| > 0 && s[0] == '-' then
      match ParseDigits(s[1..])
      case None => None
      case Some(v) => Some(-(v as int))
    else
      match ParseDigits(s)
      case None => None
      case Some(v) => Some(v as int)
  }

  /** The template string `${n}px`. */
  function FormatPx(n: int): (s: string)
    ensures s != ""
  {
    IntToDecimal(n) + "px"
  }

  /** Reads `<decimal>px`, leading zeros and `-0` included; None for `''` and any other text. */
  function ParsePx(s: string): (r: Option<int>)
    ensures s == "" ==> r.None?
  {
    if |s| >= 2 && s[|s| - 2..] == "px" then ParseDecimal(s[..|s| - 2]) else None
  }

  lemma {:induction false} ParseDigitsRoundTrip(n: nat)
    ensures ParseDigits(NatToDecimal(n)) == Some(n)
    decreases n
  {
    if n >= 10 {
      var s := NatToDecimal(n);
      var h := NatToDecimal(n / 10);
      assert s == h + [DigitChar(n % 10)];
      assert s[..|s| - 1] == h;
      ParseDigitsRoundTrip(n / 10);
    }
  }

  lemma DecimalRoundTrip(n: int)
    ensures ParseDecimal(IntToDecimal(n)) == Some(n)
  {
    if n < 0 {
      var s := IntToDecimal(n);
      assert s == "-" + NatToDecimal(-n);
      assert s[1..] == NatToDecimal(-n);
      ParseDigitsRoundTrip(-n);
    } else {
      var s := IntToDecimal(n);
      assert s == NatToDecimal(n) && IsDigit(s[0]);
      ParseDigitsRoundTrip(n);
    }
  }

  /** Reading back a written length gives the number that was written. */
  lemma PxRoundTrip(n: int)
    ensures ParsePx(FormatPx(n)) == Some(n)
  {
    var s := FormatPx(n);
    assert s[|s| - 2..] == "px";
    assert s[..|s| - 2] == IntToDecimal(n);
    DecimalRoundTrip(n);
  }

  /** Distinct numbers are written as distinct strings. */
  lemma FormatPxInjective(m: int, n: int)
    requires FormatPx(m) == FormatPx(n)
    ensures m == n
  {
    PxRoundTrip(m);
    PxRoundTrip(n);
  }
}

=== FILE: seqs.dfy ===
/** Sequence searches shared by the DOM model and the menu. */
module Seqs {

  /** Position of the first element satisfying `p`, or -1 when there is none
      (the shape of `Array.prototype.findIndex`). */
  function IndexWhere<T>(s: seq<T>, p: T -> bool): (k: int)
    ensures -1 <= k < |s|
    ensures k == -1 <==> forall j :: 0 <= j < |s| ==> !p(s[j])
    ensures 0 <= k ==> p(s[k]) && forall j :: 0 <= j < k ==> !p(s[j])
  {
    if |s| == 0 then -1
    else if p(s[0]) then 0
    else
      var k := IndexWhere(s[1..], p);
      if k == -1 then -1 else k + 1
  }

  /** Position of the first occurrence of `x`, or -1 (`Array.prototype.indexOf`). */
  function IndexOf<T(==)>(s: seq<T>, x: T): (k: int)
    ensures -1 <= k < |s|
    ensures k == -1 <==> x !in s
    ensures 0 <= k ==> s[k] == x && forall j :: 0 <= j < k ==> s[j] != x
  {
    IndexWhere(s, y => y == x)
  }

  /** The elements of `s` satisfying `p`, in their original order. */
  function Filter<T(==)>(s: seq<T>, p: T -> bool): (r: seq<T>)
    ensures |r| <= |s|
    ensures forall i :: 0 <= i < |r| ==> r[i] in s && p(r[i])
    ensures forall i :: 0 <= i < |s| && p(s[i]) ==> s[i] in r
    ensures |r| == 0 <==> IndexWhere(s, p) == -1
    ensures |r| > 0 ==> r[0] == s[IndexWhere(s, p)]
  {
    if |s| == 0 then []
    else if p(s[0]) then [s[0]] + Filter(s[1..], p)
    else Filter(s[1..], p)
  }

  /** Filtering keeps the original order: filtering a concatenation
      concatenates the filtered parts. */
  lemma {:induction false} FilterAppend<T>(a: seq<T>, b: seq<T>, p: T -> bool)
    ensures Filter(a + b, p) == Filter(a, p) + Filter(b, p)
    decreases |a|
  {
    if |a| == 0 {
      assert a + b == b;
    } else {
      assert (a + b)[0] == a[0];
      assert (a + b)[1..] == a[1..] + b;
      FilterAppend(a[1..], b, p);
    }
  }

  /** Position of the last element satisfying `p`, or -1 when there is none. */
  function LastIndexWhere<T>(s: seq<T>, p: T -> bool): (k: int)
    ensures -1 <= k < |s|
    ensures k == -1 <==> forall j :: 0 <= j < |s| ==> !p(s[j])
    ensures 0 <= k ==> p(s[k]) && forall j :: k < j < |s| ==> !p(s[j])
  {
    if |s| == 0 then -1
    else if p(s[|s| - 1]) then |s| - 1
    else LastIndexWhere(s[..|s| - 1], p)
  }

  /** Filtering a one-element sequence keeps it or drops it. */
  lemma FilterOne<T>(x: T, p: T -> bool)
    ensures Filter([x], p) == if p(x) then [x] else []
  {
  }

  /** The last element kept is the last element of `s` satisfying `p`. */
  lemma {:induction false} FilterLast<T>(s: seq<T>, p: T -> bool)
    ensures |Filter(s, p)| > 0 ==> Filter(s, p)[|Filter(s, p)| - 1] == s[LastIndexWhere(s, p)]
    decreases |s|
  {
    if |s| > 0 {
      var init, x := s[..|s| - 1], s[|s| - 1];
      assert s == init + [x];
      FilterAppend(init, [x], p);
      FilterOne(x, p);
      if !p(x) {
        assert Filter(s, p) == Filter(init, p);
        assert LastIndexWhere(s, p) == LastIndexWhere(init, p);
        FilterLast(init, p);
      }
    }
  }

  /** The first and last elements kept are the first and last elements of `s`
      satisfying `p`: nothing before the first, nor after the last, satisfies it. */
  lemma FilterEnds<T>(s: seq<T>, p: T -> bool)
    ensures var r := Filter(s, p);
            |r| > 0 ==> exists k :: 0 <= k < |s| && s[k] == r[0] && forall j :: 0 <= j < k ==> !p(s[j])
    ensures var r := Filter(s, p);
            |r| > 0 ==> exists k :: 0 <= k < |s| && s[k] == r[|r| - 1] && forall j :: k < j < |s| ==> !p(s[j])
  {
    var r := Filter(s, p);
    if |r| > 0 {
      var first := IndexWhere(s, p);
      assert s[first] == r[0];
      FilterLast(s, p);
      var last := LastIndexWhere(s, p);
      assert s[last] == r[|r| - 1];
    }
  }
}

=== FILE: wrappers.dfy ===
/** Option and Result, standing for JavaScript's null/undefined and for a thrown error. */
module Wrappers {

  /** A value that may be absent (`null` or `undefined` in the modelled code). */
  datatype Option<+T> = None | Some(value: T)

  /** The outcome of an operation that may throw. */
  datatype Result<+R, +E> = Success(value: R) | Failure(error: E)
}
